=== FILE: README.md ===
# Next-day direction features, training set and prediction rule

A Dafny model of the numeric core of the ml-finance direction predictor:

- **Features** (`backend/features.py`): simple returns of a close series;
  the five statistics `ret_1`, `ret_3`, `ret_5`, `ret_10` and `vol_10` of a
  live window, in `FEATURE_COLS` order; and the rolling training rows of
  `create_features`. Those rows hold the same statistics as rolling windows,
  a next-day-up label, and `dropna`.
- **Training** (`backend/train_lgbm_direction.py`):
  - `clean_name`;
  - the choice of the close column;
  - the training frame;
  - the missing-feature-column guard;
  - the chronological 80/20 split;
  - the saved artifact.
- **Predictor** (`backend/routers/predictor.py`):
  - the live feature vector in the artifact's `feature_cols` order;
  - the `predict_proba` pair read as (down, up);
  - the `prob_up >= 0.5` rule;
  - the HTTP outcome of a request.

Modules follow the program's structure:

- `Results` holds `Option`, `Result` and the error cases.
- `Stats` holds sum, mean and sample variance, with their sign and bounds
  lemmas.
- `Frames` is a minimal stand-in for a pandas frame: named columns over
  rectangular rows.
- `Features`, `Training` and `Predictor` follow the three source files.

How the Python constructs are represented:

- Floats are exact reals, and pandas' NaN is `None`.
- The LightGBM classifier is an uninterpreted function from a feature row to
  its probability pair.
- The training routine takes `fit` as a parameter, and the artifact carries
  the fitted function.

The central results:

- **Train/serve consistency.** Every training row's features are the live
  feature vector of the closes up to that row's day
  (`Features.TrainServeConsistent`). End to end, the endpoint answers a
  request for such a prefix from the feature vector of training-set row j
  (`Predictor.ServeMatchesTraining`).
- **Row count.** With n ≥ 11 closes, `create_features` keeps n − 10 rows. The
  newest row is kept with label 0 even though it has no next day
  (`Features.LastRowKept`).
- **Name cleaning.** `clean_name` turns each maximal run of illegal characters
  into one `_` (`Training.CleanNameRun`). It is idempotent and not injective.
- **Close column.** The stringified yfinance header `('Close', 'AAPL')` cleans
  to `_Close_AAPL_`, which only the substring fallback of the close-column
  choice finds.
- **No 400 through the endpoint.** The request schema's `min_length=11`
  rejects short windows with 422 before the handler's own check can raise,
  so the handler's 400 branch is unreachable through the endpoint
  (`Predictor.EndpointNever400`).

## Model

| member | source | states |
|---|---|---|
| Stats.Mean | backend/features.py:13-15 | `mean()` of a window: the count times the mean is the window's total, and a constant window has that constant as its mean |
| Stats.SampleVariance | backend/features.py:16 | the square of `std()`: (n − 1) times it is the sum of squared deviations from the mean; it is never negative, and it is zero exactly when every value equals the mean |
| Stats.FlatIffConstant | backend/features.py:16 | the sample variance is zero exactly when all values of the window are equal |
| Stats.MeanBounds | backend/features.py:13-15 | a mean lies between any lower and upper bound of its window |
| Frames.Get | backend/train_lgbm_direction.py:104 | `df[name]` fails with a missing-column error exactly when the name is not a column; otherwise one value per row |
| Frames.Project | backend/train_lgbm_direction.py:103 | `df.loc[:, names]` has exactly the requested columns, in the requested order, and keeps every row |
| Frames.ProjectPrefix | backend/train_lgbm_direction.py:103 | selecting distinct leading columns of a frame keeps each row's leading cells |
| Features.Returns | backend/features.py:60 | one return per adjacent pair of closes: n − 1 returns for n closes, none for an empty series; what each return is follows from `Features.CompoundReturns` |
| Features.CompoundReturns | backend/features.py:60 | compounding the returns from the first close rebuilds the close series, so returns lose nothing but the first price |
| Features.Growth | backend/features.py:60 | the return `b/a - 1` is the rate that carries price `a` to `b`: applying it to `a` gives `b` back |
| Features.FeaturesFromReturns | backend/features.py:9-17 | the dict maps `ret_1` to the newest return and `ret_3`, `ret_5`, `ret_10` to values whose 3, 5 and 10 copies sum to the 3, 5 and 10 newest returns (their means); nine times `vol_10` is the sum of squared deviations of the ten newest returns from `ret_10`; `vol_10` is never negative and zero exactly when the ten newest returns all equal `ret_10`; when those ten all equal the newest return, the dict is that return four times and a zero `vol_10` |
| Features.ReturnsPrefix | backend/features.py:60 | the returns of an earlier window are the leading returns of a later one |
| Features.ScaleInvariant | backend/features.py:60 | multiplying every close by one non-zero factor changes neither the returns nor the feature vector |
| Features.GrowthScale | backend/features.py:60 | a return is unchanged when both prices are scaled by the same non-zero factor |
| Features.Lookup | backend/features.py:11-17 | the feature dict holds a value for a name exactly when the name is in `FEATURE_COLS` |
| Features.SelectFeatures | backend/features.py:64 | reading names out of the dict succeeds exactly when every name is a feature name; entry j is then the statistic named by name j; otherwise the error names the first unknown name of the list |
| Features.BuildFeatures | backend/features.py:51-65 | fails with the insufficient-data error exactly when fewer than 11 closes are given; otherwise five values, entry j being the statistic named `FEATURE_COLS[j]` |
| Features.CanonicalOrder | backend/features.py:64 | asking the dict for `FEATURE_COLS` lists ret_1, ret_3, ret_5, ret_10 and vol_10 in that order |
| Features.BuildFeaturesVector | backend/features.py:57-64 | for 11 or more closes the vector is the five statistics of the window in `FEATURE_COLS` order |
| Features.LatestReturn | backend/features.py:12 | `ret_1` is the return from the second-newest close to the newest |
| Features.FeaturesBounded | backend/features.py:12-16 | ret_1, ret_3, ret_5 and ret_10 stay within any bounds the ten newest returns respect, and vol_10 is never negative |
| Features.TailMeanBounds | backend/features.py:13-15 | the mean of the k newest returns (k ≤ 10) stays within bounds that hold for the ten newest |
| Features.VolatilityZeroIffFlat | backend/features.py:16 | vol_10 is zero exactly when the ten newest returns are all equal |
| Features.ConstantSeries | backend/features.py:51-65 | a price that never moves yields the all-zero feature vector |
| Features.ReturnColumn | backend/features.py:31 | `pct_change` yields one entry per row |
| Features.Window | backend/features.py:34-37 | the `rolling(k)` window at row t is defined exactly when the k rows ending at t exist and none is NaN, and it then holds their values in row order |
| Features.RollingMean | backend/features.py:34-36 | `rolling(k).mean()` is NaN unless the full window is there, and k times the mean is then the window's total |
| Features.RollingVariance | backend/features.py:37 | `rolling(k).std()` squared is NaN unless the full window is there, and is then the squared deviations from the window's mean divided by k − 1, never negative and zero exactly when the window is constant |
| Features.Target | backend/features.py:40 | the label is always 0 or 1 |
| Features.DropNa | backend/features.py:43 | `dropna` never adds rows |
| Features.RawRows | backend/features.py:31-40 | one raw row per close before `dropna` |
| Features.RowCells | backend/features.py:45-46 | one cell row per kept row |
| Features.CreateFeaturesFrame | backend/features.py:20-48 | fails exactly when the `adjClose` column is missing; otherwise the frame has the columns `FEATURE_COLS` followed by `target`, n − 10 rows for n ≥ 11 days and none for fewer, row j holding the statistics of the returns of `adjClose` before day j + 10 and that day's label |
| Features.WindowOfReturns | backend/features.py:33-37 | on the return column the size-k rolling window at row t exists exactly when t ≥ k; it then holds the k returns ending with the one into row t |
| Features.RawRowComplete | backend/features.py:33-43 | a row survives `dropna` exactly when ten returns precede it; it then carries the statistics of those returns and the row's label |
| Features.DropNaSkip | backend/features.py:43 | leading incomplete rows do not affect `dropna` |
| Features.DropNaAll | backend/features.py:43 | `dropna` keeps every row of a complete frame, in order |
| Features.CreateFeatures | backend/features.py:31-43 | with n ≥ 11 closes there are n − 10 rows, and with fewer closes none; row j carries the statistics of the j + 10 returns before day j + 10 and that day's label |
| Features.TrainServeConsistent | backend/features.py:33-37 | the features of training row j equal the live vector computed from the closes up to and including day j + 10 |
| Features.TargetMeaning | backend/features.py:40 | label 1 exactly when a next close exists and the return into it is positive; with positive prices, exactly when the next close is strictly higher |
| Features.GrowthSign | backend/features.py:40 | for a positive price, the return is positive exactly when the next price is higher |
| Features.LastRowKept | backend/features.py:40-43 | the newest row is kept although it has no next day, and its label is 0 |
| Features.NoLookAhead | backend/features.py:33-37 | two series that agree up to a row's day give that row identical features |
| Training.SkipRun | backend/train_lgbm_direction.py:25 | drops exactly the leading run of illegal characters, leaving a suffix that starts legally or is empty |
| Training.CleanName | backend/train_lgbm_direction.py:25 | the result holds only `[A-Za-z0-9_]`, is no longer than the name, is empty only for the empty name, and equals the name when the name is already clean |
| Training.CleanNames | backend/train_lgbm_direction.py:36 | cleaning a list of names keeps its length and makes every name clean |
| Training.CleanNameIdempotent | backend/train_lgbm_direction.py:25 | cleaning twice is cleaning once |
| Training.SkipRunAppend | backend/train_lgbm_direction.py:25 | text after a legal character is not reached by the skipped run |
| Training.SkipWholeRun | backend/train_lgbm_direction.py:25 | skipping an all-illegal run lands on the legal text that follows it |
| Training.SkipRunKeepsLast | backend/train_lgbm_direction.py:25 | a name that ends legally keeps its last character after its leading run is skipped |
| Training.CleanNameAppend | backend/train_lgbm_direction.py:25 | cleaning distributes over a split that follows a legal character |
| Training.CleanLeadingRun | backend/train_lgbm_direction.py:25 | a leading run of illegal characters becomes one underscore |
| Training.CleanNameRun | backend/train_lgbm_direction.py:25 | each maximal run of illegal characters between legal text becomes exactly one underscore |
| Training.CleanNameNotInjective | backend/train_lgbm_direction.py:25 | `a-b` and `a_b` clean to the same name, as `ret-1` and `ret_1` do |
| Training.CleanTupleBody | backend/train_lgbm_direction.py:25 | the body `Close', 'AAPL')` of a tuple header cleans to `Close_AAPL_` |
| Training.CleanTupleHeader | backend/train_lgbm_direction.py:36 | the stringified header `('Close', 'AAPL')` cleans to `_Close_AAPL_` for any clean field and ticker |
| Training.CanonicalNamesClean | backend/train_lgbm_direction.py:92-94 | the five feature names and `target` are already clean, so cleaning leaves them unchanged |
| Training.Contains | backend/train_lgbm_direction.py:47 | `sub in s` holds exactly when `sub` occurs at some position of `s` |
| Training.OccursShift | backend/train_lgbm_direction.py:47 | occurrences past the first position are those of the string's tail |
| Training.FirstContaining | backend/train_lgbm_direction.py:47-52 | the position of the first column whose name contains the substring; none exactly when no name contains it |
| Training.SelectCloseColumn | backend/train_lgbm_direction.py:44-54 | `Close` when present; otherwise the first column containing `Close`; an error exactly when no column name contains `Close` |
| Training.CloseSeries | backend/train_lgbm_direction.py:57 | the chosen close column has one price per row |
| Training.DownloadData | backend/train_lgbm_direction.py:32-37 | an empty frame is an error; otherwise the rows are kept and every column name is cleaned |
| Training.CreateFeaturesFrame | backend/train_lgbm_direction.py:40-79 | fails exactly when no column name contains `Close`; otherwise it has the feature columns and `target`, with n − 10 rows for n ≥ 11 closes and none for fewer |
| Training.MissingColumns | backend/train_lgbm_direction.py:97 | lists exactly the wanted names that are not present |
| Training.SplitPoint | backend/train_lgbm_direction.py:113 | the split is the largest count not above four fifths of the rows |
| Training.SplitTrainingFrame | backend/train_lgbm_direction.py:92-115 | the missing-column error fires exactly when a wanted feature column is absent, listing exactly those; otherwise `X` and `y` stay aligned, the first `SplitPoint` rows train and the rest test |
| Training.PrepareTraining | backend/train_lgbm_direction.py:82-115 | train and test halves keep `X` and `y` the same length, and the training half has `SplitPoint` of all rows |
| Training.TrainAndSave | backend/train_lgbm_direction.py:125-136 | the classifier is the one fitted on the training half `X_train`, `y_train`; the artifact records the feature columns `FEATURE_COLS` and the ticker; it exists exactly when the training data could be prepared |
| Training.TrainingColumns | backend/train_lgbm_direction.py:96-101 | preparing the training data fails only for an empty download or a missing close column; the missing-feature guard never fires on the frame `create_features` built |
| Training.FeatureFrameSplits | backend/train_lgbm_direction.py:96-104 | a frame with the feature columns and `target` always passes the guard |
| Training.TrainingRows | backend/train_lgbm_direction.py:103-115 | train followed by test is exactly the `create_features` rows of the chosen close series, in time order, for `X` and for `y` |
| Training.FeatureMatrix | backend/train_lgbm_direction.py:103 | one feature vector per training row |
| Training.Labels | backend/train_lgbm_direction.py:104 | one label per training row |
| Training.SplitRows | backend/train_lgbm_direction.py:113-115 | on the `create_features` frame, train followed by test is the whole `X` and the whole `y`, with `SplitPoint` rows in training |
| Training.ProjectFeatures | backend/train_lgbm_direction.py:103 | `X` row j is the feature vector of row j |
| Training.TargetColumn | backend/train_lgbm_direction.py:104 | `y` is the label column of the rows |
| Predictor.Decide | backend/routers/predictor.py:90 | "up" exactly when the up probability is at least 0.5 |
| Predictor.DecideComplement | backend/routers/predictor.py:88-90 | when the two probabilities sum to one, "up" is answered exactly when up is at least as likely as down; a tie goes to "up" |
| Predictor.DecideMonotone | backend/routers/predictor.py:90 | raising the up probability never turns "up" into "down" |
| Predictor.BuildFeatures | backend/routers/predictor.py:35-66 | the insufficient-data error exactly for fewer than 11 closes; success exactly when every artifact column is a feature name; entry j is the statistic named by column j; otherwise an unknown-feature error |
| Predictor.RouterMatchesFeatures | backend/routers/predictor.py:46-54 | with the canonical column order, the router computes the same vector as `backend/features.py` |
| Predictor.ColumnOrderRespected | backend/routers/predictor.py:65 | entry j of a permuted column order is the canonical entry for column j's name |
| Predictor.PredictDirection | backend/routers/predictor.py:78-96 | status 400 exactly for fewer than 11 closes; status 500 only for an unknown feature name; otherwise probabilities read from the pair as (down, up), with direction "up" exactly when up ≥ 0.5 |
| Predictor.Endpoint | backend/routers/predictor.py:21-26 | a window shorter than the schema minimum is refused with 422; any other window gets the handler's answer |
| Predictor.EndpointNever400 | backend/routers/predictor.py:80-83 | through the endpoint only 422, 500 or a prediction occur; 500 exactly when the window is long enough and some artifact column is not a feature name |
| Predictor.ServeMatchesTraining | backend/routers/predictor.py:46-65 | for the saved artifact, a request holding the closes up to day j + 10 of the training series is answered from exactly the feature vector of training row j |

## Left out

- Market data and I/O are not modelled: the yfinance download, the Tiingo client in `backend/data/client.py`, `joblib` dump and load, FastAPI routing and CORS, `/predict-info`, and the message router. The fetched frame is a parameter of `Training.DownloadData`. The loaded artifact is a parameter of `Predictor.Endpoint`.
- LightGBM is not modelled: its hyper-parameters, `fit`, `predict`, and the printed toy accuracy. The classifier is an uninterpreted function, and `fit` is a parameter.
- Floating point is not modelled. Reals are exact, so rounding, `inf` and NaN arising from arithmetic are out of scope.
- Every close must be non-zero. Each close but the newest divides the next: numpy gives ±inf for x/0 and NaN for 0/0, and a NaN return would make `dropna` drop more rows. The model also excludes a zero newest close, which the source handles (its return is −1).
- Features.BuildFeatures: `vol_10` is carried as the sample variance (divisor n − 1), not its square root. Dafny has no real square root. Sign, zero and ordering facts carry over, but the value is the square of what the source computes.
- Features.RollingVariance: same as above, `rolling(10).std()` squared.
- Predictor.BuildFeatures: same `vol_10` caveat as `Features.BuildFeatures`.
- `_features_from_returns` requires at least ten returns. All callers guarantee this. Shorter series would average fewer returns; `std()` is NaN for a single return, and an empty series raises `IndexError` at `iloc[-1]`.
- Training.SplitPoint: `int(len(df) * 0.8)` is modelled as the exact ⌊4n/5⌋. Float rounding of the product could differ for very large n.
- Training.DownloadData: a `None` result from the download is not modelled separately from an empty frame.
- Frames have no duplicate column names. `df[name]` on a duplicated name would return a frame.
- `dropna` in both `create_features` (backend/features.py:43 and backend/train_lgbm_direction.py:70) also drops rows with NaN in any other column of the input frame (Open, High, …). The model carries only the close column, assumed NaN-free, and `pct_change` fill behaviour on missing closes is not modelled.
- `clean_name(str(name))` on non-string headers is modelled only through the tuple-header lemma. The model's names are strings.
- Training.SelectCloseColumn: the `Close` search is case-sensitive, as `"Close" in c` is (backend/train_lgbm_direction.py:44,47).
- The router loads one artifact when imported (backend/routers/predictor.py:12-18); nothing else is cached or trained on demand.
- Training.TrainAndSave: `fit` is total; LightGBM refuses an empty training half (11 rows or fewer), which the model does not report as an error.
- Predictor.PredictDirection: `predict_proba` never fails. LightGBM raises (status 500) for a row whose width differs from the fitted width, which the saved artifact never produces.
- Predictor.Endpoint: the 422 refusal assumes pydantic v2, where `min_length` constrains a list field.

=== FILE: features.dfy ===
/** The feature derivation of `backend/features.py`: simple returns of a
    close series, the five return statistics in `FEATURE_COLS` order for a
    live window, and the rolling-window training rows with their next-day
    label. pandas' NaN is `None`; floats are exact reals; the `vol_10`
    column carries the squared sample deviation (see README). */
module Features {
  import opened Results
  import opened Stats
  import opened Frames

  /** `FEATURE_COLS`: the canonical column order of a feature vector. */
  const FeatureCols: seq<string> := ["ret_1", "ret_3", "ret_5", "ret_10", "vol_10"]

  /** The label column appended to the training frame. */
  const TargetCol: string := "target"

  /** Fewest closes `build_features_from_closes` accepts: ten returns. */
  const MinCloses: nat := 11

  /** Close column hard-wired in this module's `create_features`. */
  const AdjClose: string := "adjClose"

  /** One simple return, `next / prev - 1`: the rate that carries `prev`
      to `next`. */
  function Growth(prev: real, next: real): (g: real)
    requires prev != 0.0
    ensures Apply(prev, g) == next
  {
    var g := next / prev - 1.0;
    assert 1.0 + g == next / prev;
    g
  }

  /** `closes[1:] / closes[:-1] - 1.0`: one return per adjacent pair. */
  function Returns(closes: seq<real>): (rs: seq<real>)
    requires NonZero(closes)
    ensures |rs| == if |closes| == 0 then 0 else |closes| - 1
  {
    if |closes| == 0 then []
    else seq(|closes| - 1, i requires 0 <= i < |closes| - 1 => Growth(closes[i], closes[i + 1]))
  }

  /** The dict `_features_from_returns` builds; its keys are `FeatureCols`. */
  datatype FeatureDict = FeatureDict(ret1: real, ret3: real, ret5: real, ret10: real, vol10: real)

  /** `feature_dict[name]`, `None` standing for the `KeyError`. */
  function Lookup(d: FeatureDict, name: string): (v: Option<real>)
    ensures v.Some? <==> name in FeatureCols
  {
    if name == "ret_1" then Some(d.ret1)
    else if name == "ret_3" then Some(d.ret3)
    else if name == "ret_5" then Some(d.ret5)
    else if name == "ret_10" then Some(d.ret10)
    else if name == "vol_10" then Some(d.vol10)
    else None
  }

  /** `_features_from_returns` on a series of at least ten returns, which is
      every series its caller hands it. The dict maps `ret_1` to the newest
      return and `ret_3`, `ret_5`, `ret_10` to the means of the 3, 5 and 10
      newest returns. `vol_10` shares the squared
      deviations of the ten newest returns from `ret_10` over nine; it is
      never negative and vanishes exactly when the ten newest returns sit on
      `ret_10`; when those ten are all equal to the newest return, every
      mean is that return and `vol_10` is zero. */
  function FeaturesFromReturns(rs: seq<real>): (d: FeatureDict)
    requires |rs| >= 10
    ensures Lookup(d, "ret_1") == Some(rs[|rs| - 1])
    ensures Lookup(d, "ret_3").Some? && 3.0 * Lookup(d, "ret_3").value == Sum(Tail(rs, 3))
    ensures Lookup(d, "ret_5").Some? && 5.0 * Lookup(d, "ret_5").value == Sum(Tail(rs, 5))
    ensures Lookup(d, "ret_10").Some? && 10.0 * Lookup(d, "ret_10").value == Sum(Tail(rs, 10))
    ensures Lookup(d, "vol_10").Some? &&
      9.0 * Lookup(d, "vol_10").value == SumSqDev(Tail(rs, 10), Lookup(d, "ret_10").value)
    ensures 9.0 * d.vol10 == SumSqDev(Tail(rs, 10), d.ret10)
    ensures d.vol10 >= 0.0
    ensures d.vol10 == 0.0 <==> AllEqual(Tail(rs, 10), d.ret10)
    ensures AllEqual(Tail(rs, 10), rs[|rs| - 1]) ==>
      FeatureVector(d) == [rs[|rs| - 1], rs[|rs| - 1], rs[|rs| - 1], rs[|rs| - 1], 0.0]
  {
    FlatTails(rs);
    FeatureDict(
      rs[|rs| - 1],
      Mean(Tail(rs, 3)),
      Mean(Tail(rs, 5)),
      Mean(Tail(rs, 10)),
      SampleVariance(Tail(rs, 10)))
  }

  /** When the ten newest returns all equal the newest one, so do the three
      and five newest. */
  lemma FlatTails(rs: seq<real>)
    requires |rs| >= 10
    ensures AllEqual(Tail(rs, 10), rs[|rs| - 1]) ==>
      && AllEqual(Tail(rs, 3), Tail(rs, 3)[0]) && Tail(rs, 3)[0] == rs[|rs| - 1]
      && AllEqual(Tail(rs, 5), Tail(rs, 5)[0]) && Tail(rs, 5)[0] == rs[|rs| - 1]
      && AllEqual(Tail(rs, 10), Tail(rs, 10)[0]) && Tail(rs, 10)[0] == rs[|rs| - 1]
  {
    var n := |rs|;
    if AllEqual(Tail(rs, 10), rs[n - 1]) {
      forall i | n - 10 <= i < n ensures rs[i] == rs[n - 1] {
        assert rs[i] == Tail(rs, 10)[i - (n - 10)];
      }
      assert forall i | 0 <= i < 3 :: Tail(rs, 3)[i] == rs[n - 3 + i];
      assert forall i | 0 <= i < 5 :: Tail(rs, 5)[i] == rs[n - 5 + i];
    }
  }

  /** `[feature_dict[c] for c in cols]`: one value per requested name, in the
      requested order; the first name the dict lacks raises. */
  function SelectFeatures(d: FeatureDict, cols: seq<string>): (r: Result<seq<real>>)
    ensures r.Ok? <==> forall j | 0 <= j < |cols| :: cols[j] in FeatureCols
    ensures r.Ok? ==> |r.value| == |cols|
    ensures r.Ok? ==> forall j | 0 <= j < |cols| :: Lookup(d, cols[j]) == Some(r.value[j])
    ensures r.Err? ==> r.error.UnknownFeature? && r.error.name in cols && r.error.name !in FeatureCols
    ensures r.Err? && r.error.UnknownFeature? && r.error.name in cols ==>
      forall k | 0 <= k < IndexOf(cols, r.error.name) :: cols[k] in FeatureCols
  {
    if |cols| == 0 then Ok([])
    else
      match Lookup(d, cols[0])
      case None => Err(UnknownFeature(cols[0]))
      case Some(v) =>
        match SelectFeatures(d, cols[1..])
        case Err(e) => Err(e)
        case Ok(rest) =>
          assert forall j | 1 <= j < |cols| :: cols[j] == cols[1..][j - 1];
          Ok([v] + rest)
  }

  /** The statistics of a live window of at least `MinCloses` closes. */
  function FeaturesOf(closes: seq<real>): FeatureDict
    requires NonZero(closes) && |closes| >= MinCloses
  {
    FeaturesFromReturns(Returns(closes))
  }

  /** The values of a dict in `FeatureCols` order. */
  function FeatureVector(d: FeatureDict): seq<real>
  {
    [d.ret1, d.ret3, d.ret5, d.ret10, d.vol10]
  }

  /** `build_features_from_closes`: fails exactly on windows shorter than
      eleven closes, and otherwise yields one value per entry of
      `FeatureCols`, each the statistic that entry names. */
  function BuildFeatures(closes: seq<real>): (r: Result<seq<real>>)
    requires NonZero(closes)
    ensures r.Err? <==> |closes| < MinCloses
    ensures r.Err? ==> r.error == InsufficientData
    ensures r.Ok? ==> |r.value| == |FeatureCols|
    ensures r.Ok? ==> forall j | 0 <= j < |FeatureCols| :: Lookup(FeaturesOf(closes), FeatureCols[j]) == Some(r.value[j])
  {
    if |closes| < MinCloses then Err(InsufficientData)
    else SelectFeatures(FeaturesOf(closes), FeatureCols)
  }

  /** Asking the dict for `FeatureCols` lists its five values in declaration
      order: ret_1, ret_3, ret_5, ret_10, vol_10. */
  lemma CanonicalOrder(d: FeatureDict)
    ensures SelectFeatures(d, FeatureCols) == Ok(FeatureVector(d))
  {
    var r := SelectFeatures(d, FeatureCols);
    assert r.Ok?;
    var v := r.value;
    assert FeatureCols[0] == "ret_1" && Lookup(d, FeatureCols[0]) == Some(v[0]);
    assert FeatureCols[1] == "ret_3" && Lookup(d, FeatureCols[1]) == Some(v[1]);
    assert FeatureCols[2] == "ret_5" && Lookup(d, FeatureCols[2]) == Some(v[2]);
    assert FeatureCols[3] == "ret_10" && Lookup(d, FeatureCols[3]) == Some(v[3]);
    assert FeatureCols[4] == "vol_10" && Lookup(d, FeatureCols[4]) == Some(v[4]);
    assert v == [v[0], v[1], v[2], v[3], v[4]];
  }

  /** The live feature vector lists the statistics in `FEATURE_COLS`
      order. */
  lemma BuildFeaturesVector(closes: seq<real>)
    requires NonZero(closes) && |closes| >= MinCloses
    ensures BuildFeatures(closes) == Ok(FeatureVector(FeaturesOf(closes)))
  {
    CanonicalOrder(FeaturesOf(closes));
  }

  /** `ret_1` of the live vector is the return into the newest close. */
  lemma LatestReturn(closes: seq<real>)
    requires NonZero(closes) && |closes| >= MinCloses
    ensures FeaturesOf(closes).ret1 == Growth(closes[|closes| - 2], closes[|closes| - 1])
  {
    var rs := Returns(closes);
    var n := |closes|;
    assert |rs| == n - 1;
    assert rs[n - 2] == Growth(closes[n - 2], closes[n - 1]);
    assert FeaturesOf(closes) == FeaturesFromReturns(rs);
  }

  /** Every statistic of the live vector stays within the range of the ten
      newest returns, and `vol_10` is never negative. */
  lemma FeaturesBounded(closes: seq<real>, lo: real, hi: real)
    requires NonZero(closes) && |closes| >= MinCloses
    requires var rs := Returns(closes);
      forall i | |rs| - 10 <= i < |rs| :: lo <= rs[i] <= hi
    ensures var d := FeaturesOf(closes);
      && lo <= d.ret1 <= hi && lo <= d.ret3 <= hi && lo <= d.ret5 <= hi && lo <= d.ret10 <= hi
      && d.vol10 >= 0.0
  {
    var rs := Returns(closes);
    TailMeanBounds(rs, 3, lo, hi);
    TailMeanBounds(rs, 5, lo, hi);
    TailMeanBounds(rs, 10, lo, hi);
  }

  /** The mean of the `k` newest returns stays within bounds that hold for
      the ten newest. */
  lemma TailMeanBounds(rs: seq<real>, k: nat, lo: real, hi: real)
    requires 1 <= k <= 10 <= |rs|
    requires forall i | |rs| - 10 <= i < |rs| :: lo <= rs[i] <= hi
    ensures lo <= Mean(Tail(rs, k)) <= hi
  {
    var w := Tail(rs, k);
    forall i | 0 <= i < k ensures lo <= w[i] <= hi {
      assert w[i] == rs[|rs| - k + i];
    }
    MeanBounds(w, lo, hi);
  }

  /** `vol_10` is zero exactly when the ten newest returns are all equal. */
  lemma VolatilityZeroIffFlat(closes: seq<real>)
    requires NonZero(closes) && |closes| >= MinCloses
    ensures var rs := Returns(closes);
      FeaturesOf(closes).vol10 == 0.0 <==> AllEqual(rs[|rs| - 10..], rs[|rs| - 10])
  {
    FlatIffConstant(Tail(Returns(closes), 10));
  }

  /** A price that never moves yields the all-zero feature vector. */
  lemma ConstantSeries(closes: seq<real>, p: real)
    requires p != 0.0 && AllEqual(closes, p) && |closes| >= MinCloses
    ensures NonZero(closes)
    ensures BuildFeatures(closes) == Ok([0.0, 0.0, 0.0, 0.0, 0.0])
  {
    var rs := Returns(closes);
    assert AllEqual(rs, 0.0) by {
      forall i | 0 <= i < |rs| ensures rs[i] == 0.0 {
        assert closes[i] == p && closes[i + 1] == p;
        assert p / p == 1.0;
      }
    }
    var n := |rs|;
    assert AllEqual(Tail(rs, 3), 0.0);
    assert AllEqual(Tail(rs, 5), 0.0);
    assert AllEqual(Tail(rs, 10), 0.0);
    MeanOfAllEqual(Tail(rs, 3), 0.0);
    MeanOfAllEqual(Tail(rs, 5), 0.0);
    MeanOfAllEqual(Tail(rs, 10), 0.0);
    FlatIffConstant(Tail(rs, 10));
    CanonicalOrder(FeaturesOf(closes));
  }

  lemma GrowthScale(a: real, b: real, k: real)
    requires a != 0.0 && k != 0.0
    ensures k * a != 0.0
    ensures Growth(k * a, k * b) == Growth(a, b)
  {
    assert (k * b) / (k * a) == b / a;
  }

  /** Every close multiplied by the same non-zero factor. */
  function Scale(closes: seq<real>, k: real): (scaled: seq<real>)
    ensures |scaled| == |closes|
  {
    seq(|closes|, i requires 0 <= i < |closes| => k * closes[i])
  }

  /** Returns, and hence every feature, ignore the unit prices are quoted in:
      rescaling all closes by one factor changes nothing. */
  lemma ScaleInvariant(closes: seq<real>, k: real)
    requires NonZero(closes) && k != 0.0
    ensures NonZero(Scale(closes, k))
    ensures Returns(Scale(closes, k)) == Returns(closes)
    ensures BuildFeatures(Scale(closes, k)) == BuildFeatures(closes)
  {
    var s := Scale(closes, k);
    forall i | 0 <= i < |s| ensures s[i] != 0.0 {
      GrowthScale(closes[i], closes[i], k);
    }
    forall i | 0 <= i < |closes| - 1
      ensures Growth(s[i], s[i + 1]) == Growth(closes[i], closes[i + 1])
    {
      GrowthScale(closes[i], closes[i + 1], k);
    }
  }

  /** The price one return `r` after `price`. */
  function Apply(price: real, r: real): real
  {
    price * (1.0 + r)
  }

  /** Prices rebuilt from a first close by compounding returns. */
  function Compound(start: real, rs: seq<real>): (prices: seq<real>)
    ensures |prices| == |rs| + 1
    decreases |rs|
  {
    if |rs| == 0 then [start] else [start] + Compound(Apply(start, rs[0]), rs[1..])
  }

  /** Returns lose nothing but the first price: compounding them from the
      first close gives the close series back. */
  lemma {:induction false} CompoundReturns(closes: seq<real>)
    requires NonZero(closes) && |closes| >= 1
    ensures Compound(closes[0], Returns(closes)) == closes
  {
    if |closes| > 1 {
      var tail := closes[1..];
      var rs := Returns(closes);
      assert NonZero(tail);
      assert rs[1..] == Returns(tail);
      assert Apply(closes[0], rs[0]) == tail[0];
      CompoundReturns(tail);
      assert closes == [closes[0]] + tail;
    }
  }

  /** The returns of an earlier window are the leading returns of a later
      one: a close added at the end only appends a return. */
  lemma ReturnsPrefix(closes: seq<real>, k: nat)
    requires NonZero(closes) && 1 <= k <= |closes|
    ensures NonZero(closes[..k])
    ensures Returns(closes[..k]) == Returns(closes)[..k - 1]
  {
  }

  // ---------------------------------------------------------------------
  // Rolling training rows (`create_features`)
  // ---------------------------------------------------------------------

  /** `df[close].pct_change()`: no value on the first row, then the return
      from the previous row's close. */
  function ReturnColumn(closes: seq<real>): (col: seq<Option<real>>)
    requires NonZero(closes)
    ensures |col| == |closes|
  {
    seq(|closes|, t requires 0 <= t < |closes| =>
      if t == 0 then None else Some(Growth(closes[t - 1], closes[t])))
  }

  predicate AllSome(w: seq<Option<real>>)
  {
    forall i | 0 <= i < |w| :: w[i].Some?
  }

  function Values(w: seq<Option<real>>): (vs: seq<real>)
    requires AllSome(w)
    ensures |vs| == |w|
  {
    seq(|w|, i requires 0 <= i < |w| => w[i].value)
  }

  /** The window `rolling(k)` sees at row `t`: defined exactly when the `k`
      rows ending at `t` exist and none of them is NaN, and then their
      values in row order. */
  function Window(col: seq<Option<real>>, t: nat, k: nat): (w: Option<seq<real>>)
    requires t < |col| && k >= 1
    ensures w.Some? <==> k <= t + 1 && forall i | t + 1 - k <= i <= t :: col[i].Some?
    ensures w.Some? ==> |w.value| == k && forall i | 0 <= i < k :: col[t + 1 - k + i] == Some(w.value[i])
  {
    if t + 1 < k then None
    else
      var w := col[t + 1 - k..t + 1];
      WindowCells(col, t, k, w);
      if AllSome(w) then Some(Values(w)) else None
  }

  lemma WindowCells(col: seq<Option<real>>, t: nat, k: nat, w: seq<Option<real>>)
    requires k <= t + 1 <= |col| && w == col[t + 1 - k..t + 1]
    ensures AllSome(w) <==> forall i | t + 1 - k <= i <= t :: col[i].Some?
    ensures AllSome(w) ==> forall i | 0 <= i < k :: col[t + 1 - k + i] == Some(Values(w)[i])
  {
    assert forall i | 0 <= i < k :: w[i] == col[t + 1 - k + i];
    assert forall i | t + 1 - k <= i <= t :: col[i] == w[i - (t + 1 - k)];
  }

  /** `rolling(k).mean()` at row `t`: NaN unless the full window is there,
      and then the value whose `k` copies add up to the window's total. */
  function RollingMean(col: seq<Option<real>>, t: nat, k: nat): (m: Option<real>)
    requires t < |col| && k >= 1
    ensures m.Some? <==> k <= t + 1 && forall i | t + 1 - k <= i <= t :: col[i].Some?
    ensures m.Some? ==> (k as real) * m.value == Sum(Window(col, t, k).value)
  {
    match Window(col, t, k)
    case None => None
    case Some(w) => Some(Mean(w))
  }

  /** `rolling(k).std()` at row `t`, squared: NaN unless the full window is
      there, and then the squared deviations from the window's mean shared
      over k - 1, never negative and zero exactly when the window is
      constant. */
  function RollingVariance(col: seq<Option<real>>, t: nat, k: nat): (v: Option<real>)
    requires t < |col| && k >= 2
    ensures v.Some? <==> k <= t + 1 && forall i | t + 1 - k <= i <= t :: col[i].Some?
    ensures v.Some? ==>
      var w := Window(col, t, k).value;
      ((k - 1) as real) * v.value == SumSqDev(w, Mean(w))
    ensures v.Some? ==> v.value >= 0.0
    ensures v.Some? ==> (v.value == 0.0 <==> AllEqual(Window(col, t, k).value, Window(col, t, k).value[0]))
  {
    match Window(col, t, k)
    case None => None
    case Some(w) =>
      FlatIffConstant(w);
      Some(SampleVariance(w))
  }

  /** `(col.shift(-1) > 0).astype(int)` at row `t`: NaN compares false, so a
      row without a successor is labelled 0 rather than NaN. */
  function Target(col: seq<Option<real>>, t: nat): (y: int)
    requires t < |col|
    ensures y == 0 || y == 1
  {
    if t + 1 < |col| && col[t + 1].Some? && col[t + 1].value > 0.0 then 1 else 0
  }

  /** A row of the frame before `dropna`. */
  datatype RawRow = RawRow(
    ret1: Option<real>, ret3: Option<real>, ret5: Option<real>,
    ret10: Option<real>, vol10: Option<real>, target: int)

  /** A row that survives `dropna`. */
  datatype Row = Row(features: FeatureDict, target: int)

  function RawRowAt(col: seq<Option<real>>, t: nat): RawRow
    requires t < |col|
  {
    RawRow(col[t], RollingMean(col, t, 3), RollingMean(col, t, 5),
      RollingMean(col, t, 10), RollingVariance(col, t, 10), Target(col, t))
  }

  predicate Complete(r: RawRow)
  {
    r.ret1.Some? && r.ret3.Some? && r.ret5.Some? && r.ret10.Some? && r.vol10.Some?
  }

  function Keep(r: RawRow): Row
    requires Complete(r)
  {
    Row(FeatureDict(r.ret1.value, r.ret3.value, r.ret5.value, r.ret10.value, r.vol10.value), r.target)
  }

  /** `dropna()`: the complete rows, in their original order. */
  function DropNa(rows: seq<RawRow>): (kept: seq<Row>)
    ensures |kept| <= |rows|
  {
    if |rows| == 0 then []
    else (if Complete(rows[0]) then [Keep(rows[0])] else []) + DropNa(rows[1..])
  }

  function RawRows(closes: seq<real>): (rows: seq<RawRow>)
    requires NonZero(closes)
    ensures |rows| == |closes|
  {
    var col := ReturnColumn(closes);
    seq(|closes|, t requires 0 <= t < |closes| => RawRowAt(col, t))
  }

  /** `create_features` on a single close column: the rolling features and
      label of every row, after `dropna`. With n >= 11 closes the first ten
      rows are dropped and the other n - 10 kept, the last one included;
      shorter series give no rows at all. Row j carries the statistics of
      the j + 10 returns before day j + 10 and that day's label. */
  function CreateFeatures(closes: seq<real>): (rows: seq<Row>)
    requires NonZero(closes)
    ensures |rows| == if |closes| >= MinCloses then |closes| - 10 else 0
    ensures forall j | 0 <= j < |rows| ::
      rows[j] == Row(FeaturesFromReturns(Returns(closes)[..j + 10]), Target(ReturnColumn(closes), j + 10))
  {
    var raw := RawRows(closes);
    var m := if |raw| < 10 then |raw| else 10;
    CompleteRows(closes);
    DropNaSkip(raw, m);
    DropNaAll(raw[m..]);
    DropNa(raw)
  }

  /** Exactly the rows from day 10 on survive `dropna`, each with the
      statistics of the returns before it. */
  lemma CompleteRows(closes: seq<real>)
    requires NonZero(closes)
    ensures forall t | 0 <= t < |closes| :: Complete(RawRows(closes)[t]) <==> t >= 10
    ensures forall t | 10 <= t < |closes| ::
      Keep(RawRows(closes)[t]) == Row(FeaturesFromReturns(Returns(closes)[..t]), Target(ReturnColumn(closes), t))
  {
    forall t | 0 <= t < |closes|
      ensures Complete(RawRows(closes)[t]) <==> t >= 10
      ensures t >= 10 ==>
        Keep(RawRows(closes)[t]) == Row(FeaturesFromReturns(Returns(closes)[..t]), Target(ReturnColumn(closes), t))
    {
      RawRowComplete(closes, t);
    }
  }

  /** The cells of a kept row under `[*FEATURE_COLS, "target"]`. */
  function Cells(r: Row): seq<real>
  {
    FeatureVector(r.features) + [r.target as real]
  }

  function RowCells(rows: seq<Row>): (cells: seq<seq<real>>)
    ensures |cells| == |rows|
  {
    seq(|rows|, i requires 0 <= i < |rows| => Cells(rows[i]))
  }

  /** `adjClose` is absent or holds no zero price. */
  predicate AdjCloseNonZero(df: Frame)
    requires WellFormed(df)
  {
    AdjClose in df.columns ==> NonZero(Column(df, IndexOf(df.columns, AdjClose)))
  }

  /** `create_features` on a whole frame: reads the `adjClose` column (a
      `KeyError` when it is missing) and keeps `FEATURE_COLS` and `target`,
      one row per day from the eleventh on, holding that day's features and
      label computed from `adjClose`. */
  function CreateFeaturesFrame(df: Frame): (r: Result<Frame>)
    requires WellFormed(df) && AdjCloseNonZero(df)
    ensures r.Err? <==> AdjClose !in df.columns
    ensures r.Ok? ==> WellFormed(r.value) && r.value.columns == FeatureCols + [TargetCol]
    ensures r.Ok? ==> |r.value.rows| == if |df.rows| >= MinCloses then |df.rows| - 10 else 0
    ensures r.Ok? ==>
      var closes := Column(df, IndexOf(df.columns, AdjClose));
      forall j | 0 <= j < |r.value.rows| ::
        r.value.rows[j] == Cells(Row(FeaturesFromReturns(Returns(closes)[..j + 10]), Target(ReturnColumn(closes), j + 10)))
  {
    var closes :- Get(df, AdjClose);
    Ok(Frame(FeatureCols + [TargetCol], RowCells(CreateFeatures(closes))))
  }

  // ---------------------------------------------------------------------
  // Proofs about the rolling rows
  // ---------------------------------------------------------------------

  /** On the return column the rolling window of size k at row t exists
      exactly when t >= k (row 0 is NaN), and it then holds the k returns
      ending with the one into row t. */
  lemma WindowOfReturns(closes: seq<real>, t: nat, k: nat)
    requires NonZero(closes) && t < |closes| && k >= 1
    ensures Window(ReturnColumn(closes), t, k) ==
      if t >= k then Some(Returns(closes)[t - k..t]) else None
  {
    var col := ReturnColumn(closes);
    if t + 1 >= k {
      var w := col[t + 1 - k..t + 1];
      if t >= k {
        var rs := Returns(closes);
        forall i | 0 <= i < k ensures w[i] == Some(rs[t - k + i]) {
          assert w[i] == col[t + 1 - k + i];
        }
        assert AllSome(w);
        var vs := Values(w);
        assert forall i | 0 <= i < k :: vs[i] == rs[t - k..t][i];
        assert vs == rs[t - k..t];
      } else {
        assert w[0] == col[0];
      }
    }
  }

  /** A row survives `dropna` exactly when ten returns precede it. */
  lemma RawRowComplete(closes: seq<real>, t: nat)
    requires NonZero(closes) && t < |closes|
    ensures Complete(RawRows(closes)[t]) <==> t >= 10
    ensures t >= 10 ==>
      Keep(RawRows(closes)[t]) == Row(FeaturesFromReturns(Returns(closes)[..t]), Target(ReturnColumn(closes), t))
  {
    var col := ReturnColumn(closes);
    WindowOfReturns(closes, t, 3);
    WindowOfReturns(closes, t, 5);
    WindowOfReturns(closes, t, 10);
    if t >= 10 {
      var rs := Returns(closes)[..t];
      assert Tail(rs, 3) == Returns(closes)[t - 3..t];
      assert Tail(rs, 5) == Returns(closes)[t - 5..t];
      assert Tail(rs, 10) == Returns(closes)[t - 10..t];
    }
  }

  lemma {:induction false} DropNaSkip(rows: seq<RawRow>, m: nat)
    requires m <= |rows|
    requires forall i | 0 <= i < m :: !Complete(rows[i])
    ensures DropNa(rows) == DropNa(rows[m..])
  {
    if m > 0 {
      assert rows[1..][m - 1..] == rows[m..];
      DropNaSkip(rows[1..], m - 1);
    }
  }

  lemma {:induction false} DropNaAll(rows: seq<RawRow>)
    requires forall i | 0 <= i < |rows| :: Complete(rows[i])
    ensures |DropNa(rows)| == |rows|
    ensures forall j | 0 <= j < |rows| :: DropNa(rows)[j] == Keep(rows[j])
  {
    if |rows| > 0 {
      DropNaAll(rows[1..]);
    }
  }

  /** Train/serve consistency: the features of training row j are those the
      live path computes from the closes up to and including that row's
      day, so no later close can influence them. */
  lemma TrainServeConsistent(closes: seq<real>, j: nat)
    requires NonZero(closes) && j < |CreateFeatures(closes)|
    ensures j + MinCloses <= |closes|
    ensures NonZero(closes[..j + MinCloses])
    ensures CreateFeatures(closes)[j].features == FeaturesOf(closes[..j + MinCloses])
    ensures BuildFeatures(closes[..j + MinCloses]) == Ok(FeatureVector(CreateFeatures(closes)[j].features))
  {
    var t := j + 10;
    RawRowComplete(closes, t);
    ReturnsPrefix(closes, t + 1);
    assert Returns(closes)[..t] == Returns(closes[..t + 1]);
    CanonicalOrder(CreateFeatures(closes)[j].features);
  }

  /** The label of training row j is 1 exactly when a next close exists and
      the return into it is positive; with positive prices, exactly when
      the next close is strictly higher. */
  lemma TargetMeaning(closes: seq<real>, j: nat)
    requires NonZero(closes) && j < |CreateFeatures(closes)|
    ensures j + MinCloses <= |closes|
    ensures CreateFeatures(closes)[j].target == 1 <==>
      j + MinCloses < |closes| && Growth(closes[j + 10], closes[j + 11]) > 0.0
    ensures CreateFeatures(closes)[j].target == 1 && closes[j + 10] > 0.0 ==>
      closes[j + 11] > closes[j + 10]
    ensures j + MinCloses < |closes| && closes[j + 10] > 0.0 && closes[j + 11] > closes[j + 10] ==>
      CreateFeatures(closes)[j].target == 1
  {
    RowTarget(closes, j);
    TargetOfDay(closes, j + 10);
  }

  /** The label of training row j is the `target` of day j + 10. */
  lemma RowTarget(closes: seq<real>, j: nat)
    requires NonZero(closes) && j < |CreateFeatures(closes)|
    ensures j + MinCloses <= |closes|
    ensures CreateFeatures(closes)[j].target == Target(ReturnColumn(closes), j + 10)
  {
  }

  /** `target` of day t: 1 exactly when a next close exists and the return
      into it is positive; for a positive close, when the next one is
      higher. */
  lemma TargetOfDay(closes: seq<real>, t: nat)
    requires NonZero(closes) && t < |closes|
    ensures Target(ReturnColumn(closes), t) == 1 <==>
      t + 1 < |closes| && Growth(closes[t], closes[t + 1]) > 0.0
    ensures t + 1 < |closes| && closes[t] > 0.0 ==>
      (Target(ReturnColumn(closes), t) == 1 <==> closes[t + 1] > closes[t])
  {
    if t + 1 < |closes| {
      assert ReturnColumn(closes)[t + 1] == Some(Growth(closes[t], closes[t + 1]));
      if closes[t] > 0.0 {
        GrowthSign(closes[t], closes[t + 1]);
      }
    }
  }

  lemma GrowthSign(a: real, b: real)
    requires a > 0.0
    ensures Growth(a, b) > 0.0 <==> b > a
  {
    assert Growth(a, b) == (b - a) / a;
    if b > a {
      QuotientSign(b - a, a, (b - a) / a);
    } else {
      QuotientSign(a - b, a, (a - b) / a);
      assert (b - a) / a == -((a - b) / a);
    }
  }

  /** The newest training row is kept even though it has no next day; its
      label is then 0. */
  lemma LastRowKept(closes: seq<real>)
    requires NonZero(closes) && |closes| >= MinCloses
    ensures |CreateFeatures(closes)| == |closes| - 10
    ensures CreateFeatures(closes)[|closes| - 11].target == 0
  {
    RawRowComplete(closes, |closes| - 1);
  }

  /** Two series that agree up to a row's day give that row identical
      features. */
  lemma NoLookAhead(a: seq<real>, b: seq<real>, j: nat)
    requires NonZero(a) && NonZero(b)
    requires j < |CreateFeatures(a)| && j < |CreateFeatures(b)|
    requires j + MinCloses <= |a| && j + MinCloses <= |b|
    requires a[..j + MinCloses] == b[..j + MinCloses]
    ensures CreateFeatures(a)[j].features == CreateFeatures(b)[j].features
  {
    TrainServeConsistent(a, j);
    TrainServeConsistent(b, j);
  }
}

=== FILE: frames.dfy ===
/** A minimal stand-in for a pandas `DataFrame` of floats: named columns and
    rows of cells, oldest row first. Only the operations the training code
    uses are modelled: `df[name]`, `df.loc[:, names]` and column renaming. */
module Frames {
  import opened Results

  datatype Frame = Frame(columns: seq<string>, rows: seq<seq<real>>)

  /** Every row has one cell per column. */
  predicate WellFormed(f: Frame)
  {
    forall i | 0 <= i < |f.rows| :: |f.rows[i]| == |f.columns|
  }

  /** Position of the first column called `x`. */
  function IndexOf(xs: seq<string>, x: string): (k: nat)
    requires x in xs
    ensures k < |xs| && xs[k] == x
    ensures forall j | 0 <= j < k :: xs[j] != x
  {
    if xs[0] == x then 0 else 1 + IndexOf(xs[1..], x)
  }

  /** The cells of column `j`, top to bottom. */
  function Column(f: Frame, j: nat): (c: seq<real>)
    requires WellFormed(f) && j < |f.columns|
    ensures |c| == |f.rows|
  {
    seq(|f.rows|, i requires 0 <= i < |f.rows| => f.rows[i][j])
  }

  /** `df[name]`: the named column, or a `KeyError` when there is none. */
  function Get(f: Frame, name: string): (r: Result<seq<real>>)
    requires WellFormed(f)
    ensures r.Err? <==> name !in f.columns
    ensures r.Err? ==> r.error == MissingColumn(name)
    ensures r.Ok? ==> |r.value| == |f.rows|
  {
    if name in f.columns then Ok(Column(f, IndexOf(f.columns, name))) else Err(MissingColumn(name))
  }

  /** `df.loc[:, names]` once every name is known to be a column. */
  function Project(f: Frame, names: seq<string>): (g: Frame)
    requires WellFormed(f)
    requires forall k | 0 <= k < |names| :: names[k] in f.columns
    ensures WellFormed(g) && g.columns == names && |g.rows| == |f.rows|
  {
    Frame(names, seq(|f.rows|, i requires 0 <= i < |f.rows| =>
      seq(|names|, k requires 0 <= k < |names| => f.rows[i][IndexOf(f.columns, names[k])])))
  }

  /** Projecting onto the leading columns of a frame keeps exactly the
      leading cells of every row, provided those names are not repeated
      earlier in the column list. */
  lemma ProjectPrefix(f: Frame, names: seq<string>, i: nat)
    requires WellFormed(f)
    requires |names| <= |f.columns| && names == f.columns[..|names|]
    requires forall a, b | 0 <= a < b < |names| :: names[a] != names[b]
    requires i < |f.rows|
    ensures Project(f, names).rows[i] == f.rows[i][..|names|]
  {
    forall k | 0 <= k < |names|
      ensures IndexOf(f.columns, names[k]) == k
    {
      assert f.columns[k] == names[k];
    }
  }
}

=== FILE: predictor.dfy ===
/** The prediction endpoint of `backend/routers/predictor.py`: the live
    feature vector in the artifact's column order, the probability-to-
    direction rule, and the HTTP outcome of a request. The artifact is the
    value `Training.TrainAndSave` produces; loading it from disk is not
    modelled. */
module Predictor {
  import opened Results
  import opened Stats
  import Features
  import Training
  import Frames

  /** `min_length` of `PriceWindow.closes`: the schema's shortest window. */
  const WindowMinLength: nat := 11

  /** Probability of "up" at or above which the endpoint answers "up". */
  const Threshold: real := 0.5

  datatype Direction = Up | Down

  /** `"up" if prob_up >= 0.5 else "down"`. */
  function Decide(probUp: real): (d: Direction)
    ensures d == Up <==> probUp >= Threshold
  {
    if probUp >= Threshold then Up else Down
  }

  /** What a request yields: a `PredictionResponse`, or an HTTP error status
      with the error behind it. */
  datatype Reply =
    | Predicted(direction: Direction, probUp: real, probDown: real)
    | Rejected(status: int, error: Error)

  /** The router's `build_features_from_closes`: fewer than eleven closes is
      the `ValueError`; otherwise the five statistics are read out of the
      dict in the artifact's `feature_cols` order, a name the dict lacks
      being the `KeyError`. */
  function BuildFeatures(closes: seq<real>, featureCols: seq<string>): (r: Result<seq<real>>)
    requires NonZero(closes)
    ensures r == Err(InsufficientData) <==> |closes| < Features.MinCloses
    ensures r.Ok? <==> |closes| >= Features.MinCloses && forall j | 0 <= j < |featureCols| :: featureCols[j] in Features.FeatureCols
    ensures r.Ok? ==> |r.value| == |featureCols|
    ensures r.Ok? ==> forall j | 0 <= j < |featureCols| ::
      Features.Lookup(Features.FeaturesOf(closes), featureCols[j]) == Some(r.value[j])
    ensures r.Err? && |closes| >= Features.MinCloses ==>
      r.error.UnknownFeature? && r.error.name in featureCols && r.error.name !in Features.FeatureCols
  {
    if |closes| < Features.MinCloses then Err(InsufficientData)
    else Features.SelectFeatures(Features.FeaturesOf(closes), featureCols)
  }

  /** The body of `predict_direction`: a `ValueError` from feature
      extraction becomes status 400, an uncaught `KeyError` status 500;
      otherwise the classifier's `(P(down), P(up))` pair decides. */
  function PredictDirection(art: Training.Artifact, closes: seq<real>): (reply: Reply)
    requires NonZero(closes)
    ensures reply.Rejected? && reply.status == 400 <==> |closes| < Features.MinCloses
    ensures reply.Rejected? && reply.status == 400 ==> reply.error == InsufficientData
    ensures reply.Rejected? ==> reply.status == 400 || reply.status == 500
    ensures reply.Rejected? && reply.status == 500 ==> reply.error.UnknownFeature? && reply.error.name in art.featureCols
    ensures reply.Predicted? <==> BuildFeatures(closes, art.featureCols).Ok?
    ensures reply.Predicted? ==>
      var x := BuildFeatures(closes, art.featureCols).value;
      && reply.probDown == art.model(x).0
      && reply.probUp == art.model(x).1
      && (reply.direction == Up <==> art.model(x).1 >= Threshold)
  {
    match BuildFeatures(closes, art.featureCols)
    case Err(e) => if e == InsufficientData then Rejected(400, e) else Rejected(500, e)
    case Ok(x) =>
      var proba := art.model(x);
      Predicted(Decide(proba.1), proba.1, proba.0)
  }

  /** A POST to `/predict-direction`: the request schema refuses a window
      shorter than `WindowMinLength` with status 422 before the handler
      runs. */
  function Endpoint(art: Training.Artifact, closes: seq<real>): (reply: Reply)
    requires NonZero(closes)
    ensures reply.Rejected? && reply.status == 422 <==> |closes| < WindowMinLength
    ensures reply.Rejected? && reply.status == 422 ==> reply.error == WindowTooShort(|closes|, WindowMinLength)
    ensures |closes| >= WindowMinLength ==> reply == PredictDirection(art, closes)
  {
    if |closes| < WindowMinLength then Rejected(422, WindowTooShort(|closes|, WindowMinLength))
    else PredictDirection(art, closes)
  }

  // ---------------------------------------------------------------------
  // Properties of the endpoint
  // ---------------------------------------------------------------------

  /** The schema's minimum equals the handler's own: once a request passes
      validation the 400 branch cannot fire, so the endpoint only ever
      answers 422, 500 or a prediction. */
  lemma EndpointNever400(art: Training.Artifact, closes: seq<real>)
    requires NonZero(closes)
    ensures Endpoint(art, closes).Rejected? ==> Endpoint(art, closes).status in {422, 500}
    ensures Endpoint(art, closes).Rejected? && Endpoint(art, closes).status == 500 <==>
      |closes| >= WindowMinLength && exists j | 0 <= j < |art.featureCols| :: art.featureCols[j] !in Features.FeatureCols
  {
    if |closes| >= WindowMinLength {
      var r := BuildFeatures(closes, art.featureCols);
      if r.Err? {
        var name := r.error.name;
        var j := Frames.IndexOf(art.featureCols, name);
        assert art.featureCols[j] !in Features.FeatureCols;
      }
    }
  }

  /** With the canonical column order the router's feature vector is the
      one `backend/features.py` computes. The router's statistics
      (`backend/routers/predictor.py` lines 46-54) are the five expressions
      of `_features_from_returns` (`backend/features.py` lines 12-16), so
      the model reuses `Features.FeaturesOf` for them and that part holds by
      construction; what this adds is that selecting by the artifact's
      order agrees with `build_features_from_closes` when that order is
      `FEATURE_COLS`. */
  lemma RouterMatchesFeatures(closes: seq<real>)
    requires NonZero(closes)
    ensures BuildFeatures(closes, Features.FeatureCols) == Features.BuildFeatures(closes)
    ensures |closes| >= Features.MinCloses ==>
      BuildFeatures(closes, Features.FeatureCols) == Ok(Features.FeatureVector(Features.FeaturesOf(closes)))
  {
    if |closes| >= Features.MinCloses {
      Features.CanonicalOrder(Features.FeaturesOf(closes));
    }
  }

  /** A permuted artifact column order permutes the feature vector: entry j
      is the statistic that `featureCols[j]` names. */
  lemma ColumnOrderRespected(closes: seq<real>, featureCols: seq<string>, j: nat)
    requires NonZero(closes) && |closes| >= Features.MinCloses
    requires forall k | 0 <= k < |featureCols| :: featureCols[k] in Features.FeatureCols
    requires j < |featureCols|
    ensures BuildFeatures(closes, featureCols).Ok?
    ensures BuildFeatures(closes, featureCols).value[j] ==
      Features.FeatureVector(Features.FeaturesOf(closes))[Frames.IndexOf(Features.FeatureCols, featureCols[j])]
  {
    var d := Features.FeaturesOf(closes);
    var k := Frames.IndexOf(Features.FeatureCols, featureCols[j]);
    Features.CanonicalOrder(d);
    assert Features.Lookup(d, Features.FeatureCols[k]) == Some(Features.FeatureVector(d)[k]);
  }

  /** For a classifier whose two probabilities sum to one, "up" is answered
      exactly when up is at least as likely as down; a tie goes to "up". */
  lemma DecideComplement(probUp: real, probDown: real)
    requires probUp + probDown == 1.0
    ensures Decide(probUp) == Up <==> probUp >= probDown
    ensures probUp == probDown ==> Decide(probUp) == Up
  {
  }

  /** Raising the probability of "up" never turns an "up" into "down". */
  lemma DecideMonotone(p: real, q: real)
    requires p <= q
    ensures Decide(p) == Up ==> Decide(q) == Up
    ensures Decide(q) == Down ==> Decide(p) == Down
  {
  }

  /** Training and serving agree: for the artifact the training script
      saves, a request carrying the closes up to and including day j+10 of
      the training series is answered from exactly the feature vector of
      training row j, the row whose label is the move of the next day. */
  lemma ServeMatchesTraining(data: Frames.Frame, ticker: string,
                             fit: (seq<seq<real>>, seq<real>) -> Training.Classifier, j: nat)
    requires Training.Trainable(data)
    ensures Training.TrainAndSave(data, ticker, fit).Ok? ==>
      var df := Training.DownloadData(data).value;
      && Training.SelectCloseColumn(df.columns).Ok?
      && var closes := Training.CloseSeries(df);
         && NonZero(closes)
         && var rows := Features.CreateFeatures(closes);
            j < |rows| ==>
              && j + Features.MinCloses <= |closes|
              && NonZero(closes[..j + Features.MinCloses])
              && var art := Training.TrainAndSave(data, ticker, fit).value;
                 var proba := art.model(Training.FeatureMatrix(rows)[j]);
                 Endpoint(art, closes[..j + Features.MinCloses]) == Predicted(Decide(proba.1), proba.1, proba.0)
  {
    if Training.TrainAndSave(data, ticker, fit).Ok? {
      Training.TrainingColumns(data);
      Training.TrainingRows(data);
      var df := Training.DownloadData(data).value;
      var closes := Training.CloseSeries(df);
      var rows := Features.CreateFeatures(closes);
      if j < |rows| {
        Features.TrainServeConsistent(closes, j);
        var prefix := closes[..j + Features.MinCloses];
        RouterMatchesFeatures(prefix);
      }
    }
  }
}

=== FILE: results.dfy ===
/** Failure-carrying values shared by the feature pipeline, the training
    script and the prediction endpoint. `Error` names every exception the
    modelled Python code can raise on its own account. */
module Results {

  datatype Option<+T> = None | Some(value: T)

  datatype Error =
    /** `ValueError`: fewer than 11 closing prices reach feature extraction. */
    | InsufficientData
    /** `KeyError` / `RuntimeError`: a named frame column does not exist. */
    | MissingColumn(column: string)
    /** `RuntimeError`: no column name contains "Close". */
    | NoCloseColumn(columns: seq<string>)
    /** `RuntimeError`: expected feature columns are absent after cleaning. */
    | MissingFeatureColumns(missing: seq<string>)
    /** `KeyError`: a requested feature name is not one the dict holds. */
    | UnknownFeature(name: string)
    /** `RuntimeError`: the downloaded frame is empty. */
    | NoData
    /** Request validation: the window holds fewer closes than the schema's
        minimum length. */
    | WindowTooShort(length: nat, minimum: nat)

  datatype Result<+T> = Ok(value: T) | Err(error: Error) {

    predicate IsFailure() {
      Err?
    }

    function PropagateFailure<U>(): Result<U>
      requires Err?
    {
      Err(error)
    }

    function Extract(): T
      requires Ok?
    {
      value
    }
  }
}

=== FILE: stats.dfy ===
/** Exact-arithmetic stand-ins for the pandas reductions the feature code
    uses: `sum`, `mean` and `std` with one degree of freedom removed. */
module Stats {

  function Sum(s: seq<real>): real
  {
    if |s| == 0 then 0.0 else s[0] + Sum(s[1..])
  }

  /** `Series.mean()` of a non-empty window: the value that, taken once per
      entry, adds up to the window's total; a constant window is its own
      mean. */
  function Mean(s: seq<real>): (m: real)
    requires |s| > 0
    ensures (|s| as real) * m == Sum(s)
    ensures AllEqual(s, s[0]) ==> m == s[0]
  {
    SumOfConstant(s);
    Sum(s) / (|s| as real)
  }

  function Sq(d: real): real
  {
    d * d
  }

  /** Sum of squared deviations of the window from `m`. */
  function SumSqDev(s: seq<real>, m: real): real
  {
    if |s| == 0 then 0.0 else Sq(s[0] - m) + SumSqDev(s[1..], m)
  }

  /** Square of `Series.std()` (ddof = 1) for a window of at least two
      values: the squared deviations from the mean shared over n - 1; never
      negative, and zero exactly when every value sits on the window's
      mean. */
  function SampleVariance(s: seq<real>): (v: real)
    requires |s| >= 2
    ensures ((|s| - 1) as real) * v == SumSqDev(s, Mean(s))
    ensures v >= 0.0
    ensures v == 0.0 <==> AllEqual(s, Mean(s))
  {
    SumSqDevSign(s, Mean(s));
    var v := SumSqDev(s, Mean(s)) / ((|s| - 1) as real);
    QuotientSign(SumSqDev(s, Mean(s)), (|s| - 1) as real, v);
    v
  }

  /** The last `k` values, as `iloc[-k:]` takes them from a long enough series. */
  function Tail(s: seq<real>, k: nat): seq<real>
    requires k <= |s|
  {
    s[|s| - k..]
  }

  /** Every value can stand as a divisor (closing prices are never zero). */
  predicate NonZero(s: seq<real>)
  {
    forall i | 0 <= i < |s| :: s[i] != 0.0
  }

  predicate AllEqual(s: seq<real>, c: real)
  {
    forall i | 0 <= i < |s| :: s[i] == c
  }

  lemma ProductPositive(a: real, b: real, c: real)
    requires a > 0.0 && b > 0.0 && c == a * b
    ensures c > 0.0
  {
  }

  lemma SqSign(d: real)
    ensures Sq(d) >= 0.0
    ensures d != 0.0 ==> Sq(d) > 0.0
    ensures d == 0.0 ==> Sq(d) == 0.0
  {
    if d > 0.0 {
      ProductPositive(d, d, Sq(d));
    } else if d < 0.0 {
      ProductPositive(-d, -d, Sq(d));
    }
  }

  /** A sum of squared deviations is never negative, and it is zero exactly
      when every value sits on `m`. */
  lemma {:induction false} SumSqDevSign(s: seq<real>, m: real)
    ensures SumSqDev(s, m) >= 0.0
    ensures SumSqDev(s, m) == 0.0 <==> AllEqual(s, m)
  {
    if |s| > 0 {
      SumSqDevSign(s[1..], m);
      SqSign(s[0] - m);
      assert AllEqual(s, m) <==> s[0] == m && AllEqual(s[1..], m) by {
        assert forall i | 0 <= i < |s[1..]| :: s[1..][i] == s[i + 1];
        assert forall i | 1 <= i < |s| :: s[i] == s[1..][i - 1];
      }
    }
  }

  lemma QuotientSign(a: real, b: real, q: real)
    requires b > 0.0 && q == a / b
    ensures a > 0.0 ==> q > 0.0
    ensures a == 0.0 ==> q == 0.0
    ensures a >= 0.0 ==> q >= 0.0
  {
  }

  lemma {:induction false} SumOfAllEqual(s: seq<real>, c: real)
    requires AllEqual(s, c)
    ensures Sum(s) == (|s| as real) * c
  {
    if |s| > 0 {
      assert AllEqual(s[1..], c) by {
        forall i | 0 <= i < |s[1..]| ensures s[1..][i] == c {
          assert s[1..][i] == s[i + 1];
        }
      }
      SumOfAllEqual(s[1..], c);
    }
  }

  lemma SumOfConstant(s: seq<real>)
    requires |s| > 0
    ensures AllEqual(s, s[0]) ==> Sum(s) == (|s| as real) * s[0]
  {
    if AllEqual(s, s[0]) {
      SumOfAllEqual(s, s[0]);
    }
  }

  /** The mean of a window whose values all equal `c` is `c`. */
  lemma MeanOfAllEqual(s: seq<real>, c: real)
    requires |s| > 0
    requires AllEqual(s, c)
    ensures Mean(s) == c
  {
    SumOfAllEqual(s, c);
  }

  /** The sample variance vanishes exactly when the window is constant:
      flat around its own mean means equal to its first value. */
  lemma FlatIffConstant(s: seq<real>)
    requires |s| >= 2
    ensures SampleVariance(s) == 0.0 <==> AllEqual(s, s[0])
  {
    if AllEqual(s, s[0]) {
      MeanOfAllEqual(s, s[0]);
    }
  }

  lemma {:induction false} SumBounds(s: seq<real>, lo: real, hi: real)
    requires forall i | 0 <= i < |s| :: lo <= s[i] <= hi
    ensures (|s| as real) * lo <= Sum(s) <= (|s| as real) * hi
  {
    if |s| > 0 {
      assert forall i | 0 <= i < |s[1..]| :: s[1..][i] == s[i + 1];
      SumBounds(s[1..], lo, hi);
    }
  }

  /** A mean never leaves the range its window spans. */
  lemma MeanBounds(s: seq<real>, lo: real, hi: real)
    requires |s| > 0
    requires forall i | 0 <= i < |s| :: lo <= s[i] <= hi
    ensures lo <= Mean(s) <= hi
  {
    SumBounds(s, lo, hi);
  }
}

=== FILE: training.dfy ===
/** The pure steps of `backend/train_lgbm_direction.py`: column-name
    sanitisation, the choice of the close column, the training frame, the
    missing-column guard and the chronological 80/20 split. Downloading and
    the LightGBM fit itself are parameters (see README). */
module Training {
  import opened Results
  import opened Stats
  import opened Frames
  import Features

  // ---------------------------------------------------------------------
  // clean_name: re.sub(r"[^A-Za-z0-9_]+", "_", name)
  // ---------------------------------------------------------------------

  /** The characters a cleaned name may contain: `[A-Za-z0-9_]`. */
  predicate IsNameChar(ch: char)
  {
    ('A' <= ch <= 'Z') || ('a' <= ch <= 'z') || ('0' <= ch <= '9') || ch == '_'
  }

  predicate IsClean(s: string)
  {
    forall i | 0 <= i < |s| :: IsNameChar(s[i])
  }

  /** What is left after the leading run of characters outside the name
      alphabet. */
  function SkipRun(s: string): (rest: string)
    ensures |rest| <= |s| && rest == s[|s| - |rest|..]
    ensures forall i | 0 <= i < |s| - |rest| :: !IsNameChar(s[i])
    ensures |rest| > 0 ==> IsNameChar(rest[0])
  {
    if |s| == 0 || IsNameChar(s[0]) then s else SkipRun(s[1..])
  }

  /** `clean_name`: every maximal run of characters outside `[A-Za-z0-9_]`
      becomes one underscore; the result is clean, no longer than the input,
      empty only for the empty name, and a clean name is left as it is. */
  function CleanName(s: string): (r: string)
    ensures IsClean(r)
    ensures |r| <= |s|
    ensures |r| == 0 <==> |s| == 0
    ensures IsClean(s) ==> r == s
    decreases |s|
  {
    if |s| == 0 then ""
    else if IsNameChar(s[0]) then
      assert IsClean(s) ==> IsClean(s[1..]);
      [s[0]] + CleanName(s[1..])
    else "_" + CleanName(SkipRun(s[1..]))
  }

  /** `[clean_name(c) for c in names]`. */
  function CleanNames(names: seq<string>): (cleaned: seq<string>)
    ensures |cleaned| == |names|
    ensures forall i | 0 <= i < |names| :: IsClean(cleaned[i])
  {
    seq(|names|, i requires 0 <= i < |names| => CleanName(names[i]))
  }

  /** Cleaning twice is cleaning once. */
  lemma CleanNameIdempotent(s: string)
    ensures CleanName(CleanName(s)) == CleanName(s)
  {
  }

  /** A prefix that ends inside the name alphabet does not reach into the
      run skipped after it. */
  lemma {:induction false} SkipRunAppend(x: string, y: string)
    requires |x| > 0 && IsNameChar(x[|x| - 1])
    ensures SkipRun(x + y) == SkipRun(x) + y
    decreases |x|
  {
    if !IsNameChar(x[0]) {
      assert (x + y)[1..] == x[1..] + y;
      SkipRunAppend(x[1..], y);
    }
  }

  /** Skipping a run made only of illegal characters lands exactly on what
      follows it, when that starts with a legal character. */
  lemma {:induction false} SkipWholeRun(run: string, b: string)
    requires forall i | 0 <= i < |run| :: !IsNameChar(run[i])
    requires |b| == 0 || IsNameChar(b[0])
    ensures SkipRun(run + b) == b
    decreases |run|
  {
    if |run| > 0 {
      assert (run + b)[1..] == run[1..] + b;
      SkipWholeRun(run[1..], b);
    } else {
      assert run + b == b;
    }
  }

  /** Cleaning works piece by piece across a boundary that follows a legal
      character: no run of illegal characters straddles it. */
  lemma {:induction false} CleanNameAppend(a: string, b: string)
    requires |a| == 0 || IsNameChar(a[|a| - 1])
    ensures CleanName(a + b) == CleanName(a) + CleanName(b)
    decreases |a|
  {
    if |a| == 0 {
      assert a + b == b;
    } else if IsNameChar(a[0]) {
      assert (a + b)[0] == a[0];
      assert (a + b)[1..] == a[1..] + b;
      CleanNameAppend(a[1..], b);
      ConcatAssoc([a[0]], CleanName(a[1..]), CleanName(b));
    } else {
      var rest := SkipRun(a[1..]);
      SkipRunKeepsLast(a[1..]);
      assert (a + b)[0] == a[0];
      assert (a + b)[1..] == a[1..] + b;
      SkipRunAppend(a[1..], b);
      CleanNameAppend(rest, b);
      ConcatAssoc("_", CleanName(rest), CleanName(b));
    }
  }

  /** A string that ends with a legal character keeps that character after
      its leading illegal run is skipped. */
  lemma SkipRunKeepsLast(s: string)
    requires |s| > 0 && IsNameChar(s[|s| - 1])
    ensures |SkipRun(s)| > 0 && SkipRun(s)[|SkipRun(s)| - 1] == s[|s| - 1]
  {
  }

  /** A leading run of illegal characters becomes one `_`. */
  lemma CleanLeadingRun(run: string, b: string)
    requires |run| > 0 && forall i | 0 <= i < |run| :: !IsNameChar(run[i])
    requires |b| == 0 || IsNameChar(b[0])
    ensures CleanName(run + b) == "_" + CleanName(b)
  {
    var c, rest := run[0], run[1..];
    assert SkipRun(rest + b) == b by {
      assert forall i | 0 <= i < |rest| :: rest[i] == run[i + 1];
      SkipWholeRun(rest, b);
    }
    assert CleanName([c] + (rest + b)) == "_" + CleanName(b) by {
      CleanIllegalHead(c, rest + b);
    }
    assert run + b == [c] + (rest + b) by {
      assert run == [c] + rest;
      ConcatAssoc([c], rest, b);
    }
  }

  /** A name that starts with an illegal character cleans to `_` followed
      by the cleaned text after its leading run. */
  lemma CleanIllegalHead(c: char, t: string)
    requires !IsNameChar(c)
    ensures CleanName([c] + t) == "_" + CleanName(SkipRun(t))
  {
    assert ([c] + t)[1..] == t;
  }

  /** Each maximal run of illegal characters becomes exactly one `_`: with
      legal characters (or the ends of the name) on both sides, the run's
      contribution to the cleaned name is a single underscore. */
  lemma CleanNameRun(a: string, run: string, b: string)
    requires |a| == 0 || IsNameChar(a[|a| - 1])
    requires |run| > 0 && forall i | 0 <= i < |run| :: !IsNameChar(run[i])
    requires |b| == 0 || IsNameChar(b[0])
    ensures CleanName(a + run + b) == CleanName(a) + "_" + CleanName(b)
  {
    var tail := run + b;
    ConcatAssoc(a, run, b);
    CleanNameAppend(a, tail);
    CleanLeadingRun(run, b);
    ConcatAssoc(CleanName(a), "_", CleanName(b));
  }

  lemma ConcatAssoc(x: string, y: string, z: string)
    ensures x + (y + z) == x + y + z
  {
  }

  /** `clean_name` is not injective: a hyphen and an underscore between the
      same two clean names collide, as `ret-1` and `ret_1` do. */
  lemma CleanNameNotInjective(a: string, b: string)
    requires |a| > 0 && IsClean(a)
    requires |b| > 0 && IsClean(b)
    ensures CleanName(a + "-" + b) == CleanName(a + "_" + b) == a + "_" + b
  {
    CleanNameRun(a, "-", b);
    assert IsClean(a + "_" + b);
  }

  /** The string pandas makes of a two-level yfinance column header such as
      `('Close', 'AAPL')` cleans to `_Close_AAPL_`: the brackets, quotes and
      separator become single underscores around the two clean parts. */
  lemma CleanTupleHeader(header: string, field: string, ticker: string)
    requires |field| > 0 && IsClean(field)
    requires |ticker| > 0 && IsClean(ticker)
    requires header == "('" + field + "', '" + ticker + "')"
    ensures CleanName(header) == "_" + field + "_" + ticker + "_"
  {
    var middle := field + "', '" + ticker + "')";
    CleanTupleBody(field, ticker);
    CleanLeadingRun("('", middle);
    ConcatAssoc("('", field + "', '" + ticker, "')");
    ConcatAssoc("('", field + "', '", ticker);
    ConcatAssoc("('", field, "', '");
    UnderscoreJoin(field, ticker);
  }

  lemma UnderscoreJoin(field: string, ticker: string)
    ensures "_" + (field + "_" + ticker + "_") == "_" + field + "_" + ticker + "_"
  {
  }

  lemma CleanTupleBody(field: string, ticker: string)
    requires |field| > 0 && IsClean(field)
    requires |ticker| > 0 && IsClean(ticker)
    ensures CleanName(field + "', '" + ticker + "')") == field + "_" + ticker + "_"
  {
    var tail := ticker + "')";
    assert CleanName(tail) == ticker + "_" by {
      assert tail == ticker + "')" + "";
      CleanNameRun(ticker, "')", "");
    }
    assert CleanName(field + "', '" + tail) == field + "_" + (ticker + "_") by {
      CleanNameRun(field, "', '", tail);
    }
    assert field + "', '" + tail == field + "', '" + ticker + "')" by {
      ConcatAssoc(field + "', '", ticker, "')");
    }
    assert field + "_" + (ticker + "_") == field + "_" + ticker + "_" by {
      ConcatAssoc(field + "_", ticker, "_");
    }
  }

  /** The five feature names and `target` are already clean, so cleaning the
      training frame's columns leaves them unchanged. */
  lemma CanonicalNamesClean()
    ensures CleanNames(Features.FeatureCols) == Features.FeatureCols
    ensures CleanName(Features.TargetCol) == Features.TargetCol
    ensures CleanNames(Features.FeatureCols + [Features.TargetCol]) == Features.FeatureCols + [Features.TargetCol]
  {
    var names := Features.FeatureCols + [Features.TargetCol];
    assert IsClean("ret_1") && IsClean("ret_3") && IsClean("ret_5");
    assert IsClean("ret_10") && IsClean("vol_10") && IsClean("target");
    assert names == ["ret_1", "ret_3", "ret_5", "ret_10", "vol_10", "target"];
    assert forall i | 0 <= i < |names| :: IsClean(names[i]);
    var cleaned := CleanNames(names);
    assert forall i | 0 <= i < |names| :: cleaned[i] == names[i];
    assert cleaned == names;
    assert CleanNames(Features.FeatureCols) == cleaned[..5];
  }

  // ---------------------------------------------------------------------
  // Close-column selection
  // ---------------------------------------------------------------------

  /** The preferred close column. */
  const CloseName: string := "Close"

  /** `sub` occurs in `s` starting at position `i`. */
  predicate OccursAt(s: string, sub: string, i: nat)
  {
    i + |sub| <= |s| && s[i..i + |sub|] == sub
  }

  /** Python's `sub in s`: `sub` occurs somewhere in `s`, case-sensitively. */
  function Contains(s: string, sub: string): (b: bool)
    ensures b <==> exists i: nat :: OccursAt(s, sub, i)
    decreases |s|
  {
    if |sub| <= |s| && s[..|sub|] == sub then
      assert OccursAt(s, sub, 0);
      true
    else if |s| == 0 then false
    else
      OccursShift(s, sub);
      Contains(s[1..], sub)
  }

  /** Occurrences in `s` past its first position are the occurrences in
      `s[1..]`. */
  lemma OccursShift(s: string, sub: string)
    requires |s| > 0 && !OccursAt(s, sub, 0)
    ensures (exists i: nat :: OccursAt(s, sub, i)) <==> exists i: nat :: OccursAt(s[1..], sub, i)
  {
    if k: nat :| OccursAt(s[1..], sub, k) {
      SliceShift(s, k + 1, |sub|);
      assert OccursAt(s, sub, k + 1);
    }
    if k: nat :| OccursAt(s, sub, k) {
      assert k > 0;
      SliceShift(s, k, |sub|);
      assert OccursAt(s[1..], sub, k - 1);
    }
  }

  /** A slice of `s` away from its first position is a slice of `s[1..]`. */
  lemma SliceShift(s: string, k: nat, n: nat)
    requires 1 <= k && k + n <= |s|
    ensures s[k..k + n] == s[1..][k - 1..k - 1 + n]
  {
    var x, y := s[k..k + n], s[1..][k - 1..k - 1 + n];
    assert forall j | 0 <= j < n :: x[j] == s[k + j] == y[j];
  }

  /** Position of the first name containing `sub`, if any. */
  function FirstContaining(cols: seq<string>, sub: string): (k: Option<nat>)
    ensures k.Some? ==> k.value < |cols| && Contains(cols[k.value], sub)
    ensures k.Some? ==> forall j | 0 <= j < k.value :: !Contains(cols[j], sub)
    ensures k.None? <==> forall j | 0 <= j < |cols| :: !Contains(cols[j], sub)
  {
    if |cols| == 0 then None
    else if Contains(cols[0], sub) then Some(0)
    else
      match FirstContaining(cols[1..], sub)
      case None =>
        assert forall j | 1 <= j < |cols| :: cols[j] == cols[1..][j - 1];
        None
      case Some(k) =>
        assert forall j | 1 <= j <= k :: cols[j] == cols[1..][j - 1];
        Some(k + 1)
  }

  /** The close column `create_features` reads: `Close` itself when present,
      otherwise the first column whose name contains `Close`; an error when
      no name contains it. */
  function SelectCloseColumn(columns: seq<string>): (r: Result<string>)
    ensures CloseName in columns ==> r == Ok(CloseName)
    ensures r.Ok? ==> r.value in columns && Contains(r.value, CloseName)
    ensures r.Ok? && CloseName !in columns ==>
      forall j | 0 <= j < IndexOf(columns, r.value) :: !Contains(columns[j], CloseName)
    ensures r.Err? <==> forall j | 0 <= j < |columns| :: !Contains(columns[j], CloseName)
    ensures r.Err? ==> r.error == NoCloseColumn(columns)
  {
    if CloseName in columns then
      assert Contains(CloseName, CloseName) by {
        assert OccursAt(CloseName, CloseName, 0);
      }
      assert columns[IndexOf(columns, CloseName)] == CloseName;
      Ok(CloseName)
    else
      match FirstContaining(columns, CloseName)
      case None => Err(NoCloseColumn(columns))
      case Some(k) =>
        assert IndexOf(columns, columns[k]) == k;
        Ok(columns[k])
  }

  /** The selected close column, if any, holds no zero price. */
  predicate CloseNonZero(df: Frame)
    requires WellFormed(df)
  {
    match SelectCloseColumn(df.columns)
    case Err(_) => true
    case Ok(name) => NonZero(Column(df, IndexOf(df.columns, name)))
  }

  /** The close series the training frame is built from. */
  function CloseSeries(df: Frame): (closes: seq<real>)
    requires WellFormed(df) && SelectCloseColumn(df.columns).Ok?
    ensures |closes| == |df.rows|
  {
    Column(df, IndexOf(df.columns, SelectCloseColumn(df.columns).value))
  }

  // ---------------------------------------------------------------------
  // download_data (after the fetch), create_features, train_and_save_model
  // ---------------------------------------------------------------------

  /** What `download_data` does with the fetched frame: an empty frame is an
      error, otherwise every column name is cleaned. */
  function DownloadData(data: Frame): (r: Result<Frame>)
    requires WellFormed(data)
    ensures r.Err? <==> |data.rows| == 0 || |data.columns| == 0
    ensures r.Err? ==> r.error == NoData
    ensures r.Ok? ==> WellFormed(r.value) && r.value.rows == data.rows
    ensures r.Ok? ==> r.value.columns == CleanNames(data.columns)
    ensures r.Ok? ==> forall j | 0 <= j < |r.value.columns| :: IsClean(r.value.columns[j])
  {
    if |data.rows| == 0 || |data.columns| == 0 then Err(NoData)
    else Ok(Frame(CleanNames(data.columns), data.rows))
  }

  /** Column names of the training frame before cleaning. */
  const OutputCols: seq<string> := Features.FeatureCols + [Features.TargetCol]

  /** `create_features` of the training script: pick the close column, build
      the rolling rows, keep the feature and target columns, clean their
      names. */
  function CreateFeaturesFrame(df: Frame): (r: Result<Frame>)
    requires WellFormed(df) && CloseNonZero(df)
    ensures r.Err? <==> forall j | 0 <= j < |df.columns| :: !Contains(df.columns[j], CloseName)
    ensures r.Ok? ==> WellFormed(r.value)
    ensures r.Ok? ==> r.value.columns == OutputCols
    ensures r.Ok? ==> |r.value.rows| == if |df.rows| >= Features.MinCloses then |df.rows| - 10 else 0
  {
    match SelectCloseColumn(df.columns)
    case Err(e) => Err(e)
    case Ok(_) =>
      var closes := CloseSeries(df);
      CanonicalNamesClean();
      Ok(Frame(CleanNames(OutputCols), Features.RowCells(Features.CreateFeatures(closes))))
  }

  /** `[c for c in wanted if c not in present]`. */
  function MissingColumns(wanted: seq<string>, present: seq<string>): (missing: seq<string>)
    ensures |missing| <= |wanted|
    ensures forall x :: x in missing <==> x in wanted && x !in present
  {
    if |wanted| == 0 then []
    else
      var rest := MissingColumns(wanted[1..], present);
      assert forall x :: x in wanted <==> x == wanted[0] || x in wanted[1..];
      if wanted[0] in present then rest else [wanted[0]] + rest
  }

  /** `int(len(df) * 0.8)`: the number of leading rows used for training,
      the largest count not above four fifths of the rows. */
  function SplitPoint(n: nat): (split: nat)
    ensures split <= n
    ensures 5 * split <= 4 * n < 5 * split + 5
  {
    (4 * n) / 5
  }

  /** The training data handed to the classifier: the feature-column order
      it is fitted with, then the chronological train and test halves. */
  datatype TrainingSet = TrainingSet(
    featureCols: seq<string>,
    xTrain: seq<seq<real>>, yTrain: seq<real>,
    xTest: seq<seq<real>>, yTest: seq<real>)

  /** The input requirements of `PrepareTraining`: a rectangular frame whose
      chosen close column, after cleaning, holds no zero price. */
  predicate Trainable(data: Frame)
  {
    WellFormed(data) && CloseNonZero(Frame(CleanNames(data.columns), data.rows))
  }

  /** The part of `train_and_save_model` after `create_features`: refuse a
      frame that lacks a cleaned feature column, listing the missing ones;
      take `X` in the cleaned feature order and `y` from `target`; clean the
      names of `X` once more, which changes nothing for names that are
      already clean; split the rows chronologically, the first `SplitPoint`
      for training. */
  function SplitTrainingFrame(df: Frame, featureCols: seq<string>): (r: Result<TrainingSet>)
    requires WellFormed(df)
    ensures r.Err? && r.error.MissingFeatureColumns? ==>
      forall x :: x in r.error.missing <==> x in featureCols && x !in df.columns
    ensures r.Err? && r.error.MissingFeatureColumns? <==> exists x :: x in featureCols && x !in df.columns
    ensures r.Err? && !r.error.MissingFeatureColumns? ==> r.error == MissingColumn(Features.TargetCol)
    ensures r.Ok? ==> forall k | 0 <= k < |r.value.featureCols| :: IsClean(r.value.featureCols[k])
    ensures r.Ok? ==> |r.value.featureCols| == |featureCols|
    ensures r.Ok? && (forall k | 0 <= k < |featureCols| :: IsClean(featureCols[k])) ==>
      r.value.featureCols == featureCols
    ensures r.Ok? ==> |r.value.xTrain| == |r.value.yTrain| == SplitPoint(|df.rows|)
    ensures r.Ok? ==> |r.value.xTrain| + |r.value.xTest| == |r.value.yTrain| + |r.value.yTest| == |df.rows|
  {
    var missing := MissingColumns(featureCols, df.columns);
    if |missing| > 0 then
      assert missing[0] in featureCols;
      Err(MissingFeatureColumns(missing))
    else
      assert forall k | 0 <= k < |featureCols| :: featureCols[k] in df.columns;
      var x := Project(df, featureCols);
      var y :- Get(df, Features.TargetCol);
      var split := SplitPoint(|df.rows|);
      var names := CleanNames(x.columns);
      assert (forall k | 0 <= k < |featureCols| :: IsClean(featureCols[k])) ==> names == featureCols;
      Ok(TrainingSet(names, x.rows[..split], y[..split], x.rows[split..], y[split..]))
  }

  /** `train_and_save_model` up to the `fit` call. */
  function PrepareTraining(data: Frame): (r: Result<TrainingSet>)
    requires Trainable(data)
    ensures r.Ok? ==> |r.value.xTrain| == |r.value.yTrain| && |r.value.xTest| == |r.value.yTest|
    ensures r.Ok? ==> |r.value.xTrain| == SplitPoint(|r.value.xTrain| + |r.value.xTest|)
  {
    var raw :- DownloadData(data);
    var df :- CreateFeaturesFrame(raw);
    SplitTrainingFrame(df, CleanNames(Features.FeatureCols))
  }

  /** A fitted classifier: feature row to `predict_proba`'s pair
      (probability of label 0, probability of label 1). */
  type Classifier = seq<real> -> (real, real)

  /** The artifact `joblib.dump` writes. */
  datatype Artifact = Artifact(model: Classifier, featureCols: seq<string>, ticker: string)

  /** `train_and_save_model` with the LightGBM fit supplied as `fit`: the
      classifier is fitted on the training half only, and the artifact
      records the cleaned feature columns, which are exactly `FEATURE_COLS`,
      and the ticker. */
  function TrainAndSave(data: Frame, ticker: string, fit: (seq<seq<real>>, seq<real>) -> Classifier): (r: Result<Artifact>)
    requires Trainable(data)
    ensures r.Ok? ==> r.value.featureCols == Features.FeatureCols && r.value.ticker == ticker
    ensures r.Ok? <==> PrepareTraining(data).Ok?
    ensures r.Ok? ==>
      r.value.model == fit(PrepareTraining(data).value.xTrain, PrepareTraining(data).value.yTrain)
  {
    var ts :- PrepareTraining(data);
    TrainingColumns(data);
    Ok(Artifact(fit(ts.xTrain, ts.yTrain), ts.featureCols, ticker))
  }

  // ---------------------------------------------------------------------
  // Proofs about the training pipeline
  // ---------------------------------------------------------------------

  /** Preparing the training data fails only for lack of data or of a close
      column; the missing-feature guard never fires on a frame
      `create_features` built, and the recorded columns are `FEATURE_COLS`. */
  lemma TrainingColumns(data: Frame)
    requires Trainable(data)
    ensures PrepareTraining(data).Err? <==>
      |data.rows| == 0 || |data.columns| == 0 ||
      forall j | 0 <= j < |data.columns| :: !Contains(CleanName(data.columns[j]), CloseName)
    ensures PrepareTraining(data).Err? ==> !PrepareTraining(data).error.MissingFeatureColumns?
    ensures PrepareTraining(data).Ok? ==> PrepareTraining(data).value.featureCols == Features.FeatureCols
  {
    CanonicalNamesClean();
    if |data.rows| > 0 && |data.columns| > 0 {
      var raw := DownloadData(data).value;
      assert forall j | 0 <= j < |data.columns| :: raw.columns[j] == CleanName(data.columns[j]);
      var df := CreateFeaturesFrame(raw);
      if df.Ok? {
        FeatureFrameSplits(df.value);
      }
    }
  }

  /** A frame with the columns `create_features` produces always passes the
      missing-column guard and has a `target` column. */
  lemma FeatureFrameSplits(df: Frame)
    requires WellFormed(df) && df.columns == OutputCols
    ensures SplitTrainingFrame(df, Features.FeatureCols).Ok?
  {
    assert forall k | 0 <= k < 5 :: Features.FeatureCols[k] == OutputCols[k];
    assert OutputCols[5] == Features.TargetCol;
  }

  /** Training rows: with the close series of the cleaned frame, the train
      and test halves together are the rows of `create_features` in time
      order, train first; row j carries the features and the label of the
      (j+11)-th close. */
  lemma TrainingRows(data: Frame)
    requires Trainable(data)
    ensures PrepareTraining(data).Ok? ==>
      var df := DownloadData(data).value;
      && SelectCloseColumn(df.columns).Ok?
      && NonZero(CloseSeries(df))
      && var rows := Features.CreateFeatures(CloseSeries(df));
         var ts := PrepareTraining(data).value;
         && ts.xTrain + ts.xTest == FeatureMatrix(rows)
         && ts.yTrain + ts.yTest == Labels(rows)
         && |ts.xTrain| == SplitPoint(|rows|)
  {
    if PrepareTraining(data).Ok? {
      TrainingColumns(data);
      CanonicalNamesClean();
      var df := DownloadData(data).value;
      var closes := CloseSeries(df);
      var rows := Features.CreateFeatures(closes);
      assert CreateFeaturesFrame(df).value == Frame(OutputCols, Features.RowCells(rows));
      SplitRows(rows);
    }
  }

  /** `X` as `create_features` lays it out: one feature vector per row. */
  function FeatureMatrix(rows: seq<Features.Row>): (x: seq<seq<real>>)
    ensures |x| == |rows|
  {
    seq(|rows|, j requires 0 <= j < |rows| => Features.FeatureVector(rows[j].features))
  }

  /** `y`: the label of each row. */
  function Labels(rows: seq<Features.Row>): (y: seq<real>)
    ensures |y| == |rows|
  {
    seq(|rows|, j requires 0 <= j < |rows| => rows[j].target as real)
  }

  /** On the frame `create_features` builds, the split keeps `X` and `y`
      aligned and in time order, train first. */
  lemma SplitRows(rows: seq<Features.Row>)
    ensures var df := Frame(OutputCols, Features.RowCells(rows));
      && WellFormed(df)
      && SplitTrainingFrame(df, Features.FeatureCols).Ok?
      && var ts := SplitTrainingFrame(df, Features.FeatureCols).value;
         && ts.xTrain + ts.xTest == FeatureMatrix(rows)
         && ts.yTrain + ts.yTest == Labels(rows)
         && |ts.xTrain| == SplitPoint(|rows|)
  {
    var df := Frame(OutputCols, Features.RowCells(rows));
    FeatureFrameSplits(df);
    ProjectFeatures(rows);
    TargetColumn(rows);
  }

  lemma ProjectFeatures(rows: seq<Features.Row>)
    ensures WellFormed(Frame(OutputCols, Features.RowCells(rows)))
    ensures Project(Frame(OutputCols, Features.RowCells(rows)), Features.FeatureCols).rows == FeatureMatrix(rows)
  {
    var df := Frame(OutputCols, Features.RowCells(rows));
    assert Features.FeatureCols == df.columns[..5];
    assert forall a, b | 0 <= a < b < 5 :: Features.FeatureCols[a] != Features.FeatureCols[b];
    var x := Project(df, Features.FeatureCols);
    forall j | 0 <= j < |rows|
      ensures x.rows[j] == FeatureMatrix(rows)[j]
    {
      ProjectPrefix(df, Features.FeatureCols, j);
    }
  }

  lemma TargetColumn(rows: seq<Features.Row>)
    ensures WellFormed(Frame(OutputCols, Features.RowCells(rows)))
    ensures Get(Frame(OutputCols, Features.RowCells(rows)), Features.TargetCol) == Ok(Labels(rows))
  {
    var df := Frame(OutputCols, Features.RowCells(rows));
    assert IndexOf(df.columns, Features.TargetCol) == 5;
    var c := Column(df, 5);
    forall i | 0 <= i < |rows| ensures c[i] == Labels(rows)[i] {
      assert df.rows[i] == Features.Cells(rows[i]);
    }
    assert c == Labels(rows);
  }
}
